=== FILE: README.md ===
# CallDove call relay — a Dafny model

CallDove bridges a phone call to a speech-translation backend. For each call,
a relay session holds two WebSocket legs. The telephony leg is a Twilio media
stream. The translation leg is an OpenAI Realtime connection. The session
forwards caller audio to the backend and plays translated audio back to the
caller. It also sends progress marks, and it arbitrates turn-taking: it asks
for one response when the caller stops speaking, and it cancels that response
and clears playback when the caller starts speaking again (barge-in).

The repository has two variants of this relay, and they are modelled as two
separate machines:

- `RelayDebug` (server-debug.js) has a `ready` gate on inbound audio, the
  `prog` turn flag, a rate limiter on marks, and language names resolved from
  `LANGS` with fallbacks.
- `Relay` (server.js) has a process-wide `callLanguages` registry (`CallRegistry`).
  Inbound audio is gated only on the socket state. Its backend delta event has
  a different name.

Each variant is a pure step function
`Step(state, event) -> Emitted(state', toTwilio, toOpenAi)`. The two output
lists hold the frames written to each leg and the socket `close()` calls,
in order. The socket `readyState` of each leg is part of the state. A frame
written to a socket that is not OPEN is dropped, as `ws` does. `Traces.Run`
folds a step function over an event stream. The trace lemmas are proved by
induction over the stream.

Files:

- `legs.dfy` (`Legs`): frames, socket states, JS truthiness, `Option`.
- `traces.dfy` (`Traces`): generic runs, state sequences, concatenation.
- `decimal.dfy` (`Decimal`): the integer text behind mark names and its parse.
- `debug_langs.dfy` (`DebugLangs`): `LANGS`, fallbacks, and the finding below.
- `relay_debug.dfy` and `relay_debug_traces.dfy`: the server-debug.js machine and its stream properties.
- `registry.dfy`, `relay.dfy` and `relay_traces.dfy`: the server.js registry, machine and stream properties.
- `variants.dfy`: inputs on which the two variants behave differently.

Where the code's behaviour is easy to misread, the model does what the code
does:

- server.js reads the registry entry at stream start without removing it. The
  entry is deleted only by a telephony `stop` that carries a call id. It is
  not deleted on socket close. There is no expiry.
- A mark is written only when more than 1000 ms have passed (`>`, not `>=`).
- Audio deltas that arrive after a barge-in cancel are still forwarded.
- In server.js the translation socket becomes OPEN only when its `open` event
  fires. The handler for that event sends `session.update` synchronously, so
  the readyState gate alone already keeps every `append` behind the
  configuration (`RelayTraces.NoAppendBeforeConfig`). What server.js lacks
  compared with the debug variant is the payload check
  (`Variants.MediaGateDiffers`).
- Teardown goes one way. When the telephony leg closes, the handler closes an
  OPEN translation leg. When the translation leg closes, neither variant
  closes the telephony leg, and that leg keeps its state (`RelayDebug.OnOpenAiClose`,
  `Relay.OnOpenAiClose`).

## Model

| member | source | states |
|---|---|---|
| DebugLangs.LookupAsWritten | server-debug.js:46 | `LANGS[code]` as JavaScript evaluates it: the table's own name for a listed code, `undefined` for a code that is neither listed nor inherited |
| DebugLangs.InheritedKeyEscapesFallback | server-debug.js:46 | as written, `source=constructor` resolves to an inherited function, which is neither a `LANGS` name nor the 'Spanish' fallback |
| DebugLangs.LanguageName | server-debug.js:16 | the corrected lookup always yields a `LANGS` name: the table's name for a listed code, otherwise the fallback |
| DebugLangs.LanguageNameAgreesOffPrototype | server-debug.js:46 | on every code that is not an inherited member name, the corrected lookup equals the written one |
| DebugLangs.ResolveNames | server-debug.js:45-46 | a missing or empty query parameter means 'es'/'en' ('Spanish'/'English'); a listed code gets its `LANGS` name; with the corrected lookup (see Findings) any other code means 'Spanish'/'English', so both names are always `LANGS` values |
| RelayDebug.Connect | server-debug.js:45-50 | a new session has the `LANGS` names of its query codes ('Spanish'/'English' for a missing, empty or unlisted code, under the corrected lookup), no stream id, `ready`/`prog` false, `mark` 0, and a translation socket that is still connecting |
| Decimal.IntTextRoundTrip | server-debug.js:66 | the decimal text of any integer parses back to that integer |
| Decimal.IntTextInjective | server-debug.js:66 | distinct timestamps have distinct texts, so mark names are unique per timestamp |
| RelayDebug.MarkNameRoundTrip | server-debug.js:66 | the timestamp is recoverable from `'m_' + now` |
| RelayDebug.OnTwilioMessage | server-debug.js:76-83 | `append` is sent iff the frame is `media` with a non-empty payload, `ready` holds and the socket is OPEN, and it carries that payload; `start` sets `sid` from `start.streamSid`, falling back to the top-level `streamSid`; `stop` closes the telephony socket; turn and mark state never change |
| RelayDebug.OnTwilioClose | server-debug.js:84 | a telephony close closes the translation socket exactly when it is OPEN, and keeps the names, `sid`, `ready`, `prog` and `mark` |
| RelayDebug.OnOpenAiOpen | server-debug.js:56-61 | the open event sends exactly one `session.update` with the names fixed at connection, which stay the same, then `ready` is true |
| RelayDebug.OnOpenAiMessage | server-debug.js:62-71 | a delta with payload and `sid` plays as `media` tagged with `sid`, plus one `mark` named from `now` iff `now - mark > 1000`, which then becomes the new `mark`; a barge-in (`speech_started` with `prog` and `sid`) clears, cancels and resets `prog`, and any other `speech_started` is a no-op; `speech_stopped` creates one response iff `!prog`; `response.done` resets `prog`; a delta without payload or before `sid` is set, and any other type, does nothing |
| RelayDebug.OnOpenAiClose | server-debug.js:72 | a translation close resets `ready` and `prog`, writes nothing, and keeps the names, `sid`, `mark` and the telephony socket |
| RelayDebug.Step | server-debug.js:62-84 | unparsable frames and error events change nothing (a `null` frame too, as corrected); `append` only when ready and OPEN; `ready` rises only on the open event, which has just sent the configuration |
| RelayDebugTraces.AppendsFollowConfig | server-debug.js:56-60 | in any stream, every `append` follows a `session.update` of the same stream unless the session started ready |
| RelayDebugTraces.NoAppendBeforeConfig | server-debug.js:79-81 | from a fresh connection, for every interleaving of the two legs, no audio reaches the backend before its configuration |
| RelayDebugTraces.CreateStartsTurn | server-debug.js:69 | `response.create` is written only when `prog` is false, and it sets `prog` |
| RelayDebugTraces.ProgFallsOnlyOnTurnEnd | server-debug.js:68-72 | `prog` falls only on `response.done`, a barge-in, or a translation close |
| RelayDebugTraces.ProgFallsBetween | server-debug.js:68-72 | if `prog` is true at one point of a stream and false later, a turn-ending event lies between |
| RelayDebugTraces.OneResponseAtATime | server-debug.js:68-72 | between any two `response.create` frames of a stream lies a `response.done`, a barge-in, or a translation close |
| RelayDebugTraces.StepMarks | server-debug.js:64-66 | every mark frame carries a parseable stamp; one event writes at most one mark; its stamp is the event's `now`, more than 1000 after the old `mark`, and becomes `mark` |
| RelayDebugTraces.MarksSpaced | server-debug.js:64-66 | over any stream, consecutive mark timestamps differ by more than 1000 ms, and the first one is more than 1000 ms after the session's last mark |
| RelayDebugTraces.MarkStampsWithin | server-debug.js:66 | every mark stamp of a stream equals the `now` of one of the stream's translation-leg messages |
| RelayDebugTraces.MarkStampsCountMarks | server-debug.js:66 | every mark frame a stream writes carries a parseable stamp, so the stamps are one per mark frame |
| RelayDebugTraces.MarkCountBound | server-debug.js:64-66 | a stream whose translation-leg messages all arrive within `[lo, hi]` writes n mark frames with `(n - 1) * 1001 <= hi - lo` |
| RelayDebugTraces.DeltasPlayInOrder | server-debug.js:64-66 | once `sid` is set, and with no `start`, `stop` or telephony close in between, the `media` payloads sent to the caller are exactly the stream's deltas with a payload, once each and in arrival order |
| RelayDebugTraces.DeltasKeepTurn | server-debug.js:64-67 | audio deltas write nothing to the backend, no `clear`, and leave `prog`, `ready` and `sid` unchanged |
| RelayDebugTraces.BargeInScenario | server-debug.js:64-69 | `speech_stopped`, then any deltas, then `speech_started` writes exactly `[response.create, response.cancel]` to the backend; the last telephony frame is the only `clear`; the turn ends idle |
| RelayDebugTraces.IgnorableIsInvisible | server-debug.js:63 | inserting an unparsable or `null` frame (the latter as corrected) or an error event anywhere in a stream leaves the whole run unchanged |
| RelayDebug.StepAsWritten | server-debug.js:63-78 | as written, a frame that parses to `null` crashes the process (`d.event`/`e.type` throw outside any `try`); every other event is `Step` |
| RelayDebugTraces.RunAsWritten | server-debug.js:63-78 | a stream as written ends in a crash iff it holds a `null` frame; otherwise it is the corrected run |
| RelayDebugTraces.NullFrameEndsSession | server-debug.js:63-78 | one `null` frame anywhere ends the stream as written, while the corrected run is as if it never arrived |
| RelayDebugTraces.StopTearsDownBoth | server-debug.js:82-84 | `stop` then the telephony close, with both legs OPEN, closes the telephony socket and then the translation socket |
| CallRegistry.SetupPair | server.js:169-170 | missing or empty `source`/`target` query values default to 'es'/'en'; present ones are kept verbatim |
| CallRegistry.Voice | server.js:168-175 | `/voice` stores the pair under `CallSid` (a string, `null`, or `undefined` when the body has none), overwriting, and leaves every other entry alone |
| CallRegistry.Languages | server.js:204-206 | the start-time lookup returns the pair stored under exactly that key, or `{es, en}` when there is none; `null`, `undefined` and each string are distinct keys |
| CallRegistry.Forget | server.js:287-289 | `stop` deletes exactly the session's call id when it is truthy, and nothing otherwise |
| CallRegistry.VoiceThenLanguages | server.js:175 | a lookup after setup of the same call returns the pair from the setup query |
| CallRegistry.VoiceKeepsOtherCalls | server.js:175 | setting up one call does not change another call's lookup |
| CallRegistry.LastVoiceWins | server.js:175 | a second setup of the same call overwrites the first |
| CallRegistry.ForgetThenDefault | server.js:287-289 | after the delete, that call's lookup falls back to the default; other calls are untouched |
| CallRegistry.MissingSetupSidMissesNullStart | server.js:204-206 | a setup without `CallSid` stores under `undefined`, and a start frame with `"callSid": null` misses that entry and gets `{es, en}` |
| Relay.Connect | server.js:193-197 | a new session has a `null` call id, no stream id and no translation socket |
| Relay.CloseBackend | server.js:284-286 | the translation socket is closed iff it exists and is OPEN |
| Relay.OnTwilioMessage | server.js:199-294 | `start` sets both ids and opens a socket configured with the registry's pair (or the default) without touching the registry or the telephony socket; `media` is forwarded whenever the socket is OPEN, whatever the payload; `stop` closes the socket and forgets the entry; a missing `start`/`media` body throws, is caught, and changes nothing |
| Relay.OnTwilioClose | server.js:296-301 | a telephony close closes an OPEN translation socket; only that socket's readyState changes: its handle and pair, both ids and the registry entry stay |
| Relay.OnOpenAiOpen | server.js:216-243 | the open event sends one `session.update` built from the pair captured at start, and keeps that pair, both ids and the telephony socket |
| Relay.OnOpenAiMessage | server.js:245-264 | only a `response.output_audio.delta` with a non-empty delta writes one `media` frame tagged with `streamSid`; nothing else is written and nothing changes |
| Relay.OnOpenAiClose | server.js:270-272 | a translation close only marks that leg CLOSED; it writes nothing, keeps the ids and the registry, and leaves the telephony leg as it was (an error event changes nothing, see `Relay.Step`) |
| Relay.Step | server.js:168-301 | the registry changes only on call setup and `stop`; unparsable or `null` frames and error events change nothing; `append` only on an OPEN socket; the socket becomes OPEN only on its open event, which sends the configuration |
| RelayTraces.AppendsFollowConfig | server.js:216-243 | in any stream, every `append` follows a `session.update` unless the socket was already OPEN |
| RelayTraces.NoAppendBeforeConfig | server.js:275-280 | from a fresh connection, no audio reaches the backend before its configuration |
| RelayTraces.RegistryOnlyShrinks | server.js:282-290 | without call setups, a stream only removes entries and never changes a stored pair |
| RelayTraces.RegistryKeptWithoutStop | server.js:296-301 | a stream without call setups and without `stop` frames leaves the registry exactly as it was, even when the telephony socket closes |
| RelayTraces.SetupThenStart | server.js:203-206 | a call setup followed by that call's `start` configures the leg with the setup pair, and the entry remains afterwards |
| RelayTraces.StartThenStopForgets | server.js:282-290 | `start`, open, then `stop` sends the configuration, then closes the socket, and removes the call's entry |
| RelayTraces.TwilioGetsOnlyDeltas | server.js:254-260 | in any state, everything a stream writes to the caller is a `media` frame whose payload is the delta of some `response.output_audio.delta` event of that stream, and there are no more frames than events |
| RelayTraces.DeltasPlayInOrder | server.js:254-260 | with the telephony socket open, a translation socket present and no telephony close in between, the `media` payloads sent to the caller are exactly the stream's non-empty deltas, once each and in arrival order |
| RelayTraces.IgnorableIsInvisible | server.js:291-293 | a frame that fails to parse, parses to `null` or throws during handling, or a translation-leg error, anywhere in a stream leaves the run unchanged |
| Variants.DeltaNamesDiffer | server.js:254 | each variant ignores the other's audio delta event name |
| Variants.MediaGateDiffers | server.js:275-280 | with an empty payload on an OPEN socket, server.js still sends `append` and the debug relay does not |

## Left out

- Express auth routes, MongoDB access and Twilio Verify calls (server.js:18-25, 46-134). These are I/O against collaborators that are not part of this model.
- Token generation (server.js:136-166). It is an opaque library call.
- TwiML documents and stream URLs built in both `/voice` handlers. This is string templating. The debug `/voice` handler has no effect on the relay beyond these strings.
- `/health` endpoints and all logging.
- Contents of `session.update` other than the two language strings its instructions are built from. In server.js these are the codes. The `languageMap` names inside the instruction text are left out, including the text `undefined` that an unknown code produces there.
- The `ws` library's lifecycle. Sockets are abstract `readyState` values, and any event is accepted in any state. This over-approximates the real event orders, so the safety lemmas cover every interleaving. A `send` to a socket that is not OPEN is modelled as dropped. For the server-side telephony socket, `ws` does not throw in this case.
- `Date.now()` is the `now` of a translation-leg message. The process environment and constants such as model names and voices are not modelled.
- A second `start` on one server.js connection. The code opens a second translation socket and leaves the first one running. The model replaces the leg instead.
- Integers of magnitude 1e21 or more, which JavaScript writes in exponent form in mark names.
- Cross-session concurrency. Each session is one serialized event stream, and other calls' setups appear only as `CallSetup` events.
- DebugLangs.ResolveNames: resolves an unlisted code with the corrected own-property lookup of the Findings, not with `LANGS[code]` as written, which yields an inherited function for `constructor` and the like.
- RelayDebug.Connect: the debug relay uses those corrected names, so it does not model the inherited-function instructions the code builds for such a query.
- RelayDebug.Step: drops a frame that parses to `null`, the corrected behaviour of the Findings; the crash the code has for it is modelled only by `RelayDebug.StepAsWritten` and `RelayDebugTraces.RunAsWritten`.
- Call ids that are neither strings nor `null` nor missing (a number in a start frame, an array from a repeated form field) are not modelled; the registry key is `undefined`, `null` or a string.
- RelayDebugTraces.MarkCountBound: proves only the upper bound on marks within a window. How many marks a sustained stream actually produces depends on when the deltas arrive.

## Findings

| source | as written | input that shows it | evidently intended | confidence | as-written member | corrected member |
|---|---|---|---|---|---|---|
| server-debug.js:46 | `LANGS[src]\|\|'Spanish'` looks a code up in a plain object, which also finds the members inherited from `Object.prototype` | query `source=constructor` (or `toString`, `__proto__`, ...): the name becomes an inherited member, a function for `constructor` or `toString` and the `Object.prototype` object for `__proto__`, and the instructions embed its string form (`function Object() { [native code] }`, `[object Object]`) | an unknown code falls back to 'Spanish' (and to 'English' for the target) | not executed; medium | DebugLangs.InheritedKeyEscapesFallback | DebugLangs.LanguageName |
| server-debug.js:63-78 | both message handlers put only `JSON.parse` in a `try` and then read `d.event` / `e.type`; for a frame that parses to `null` the read throws a `TypeError` no handler catches | a telephony or translation-leg frame with the text `null` | a frame that is not a usable message is dropped, as the `try` around the parse shows, and the session goes on | not executed; low | RelayDebugTraces.NullFrameEndsSession | RelayDebugTraces.IgnorableIsInvisible |

=== FILE: debug_langs.dfy ===
/** Language-name resolution of the debug relay: the `LANGS` table, the
    query-parameter defaults, and the lookup `LANGS[code] || fallback`. */
module DebugLangs {
  import opened Legs

  /** server-debug.js `LANGS`: language code to the name used in the
      translation instructions. */
  const Langs: map<string, string> := map[
    "es" := "Spanish", "en" := "English", "zh" := "Mandarin", "fr" := "French",
    "de" := "German", "it" := "Italian", "pt" := "Portuguese", "ja" := "Japanese",
    "ko" := "Korean", "nl" := "Dutch", "ru" := "Russian"]

  const SourceFallbackName := "Spanish"
  const TargetFallbackName := "English"

  /** Names of the members every plain JavaScript object inherits from
      `Object.prototype`; `LANGS[k]` finds one of these for such a `k`. */
  const InheritedKeys: set<string> := {
    "constructor", "__proto__", "hasOwnProperty", "isPrototypeOf",
    "propertyIsEnumerable", "toLocaleString", "toString", "valueOf",
    "__defineGetter__", "__defineSetter__", "__lookupGetter__", "__lookupSetter__"}

  /** A JavaScript value as far as the lookup needs: `undefined`, a string,
      or an inherited function/object (always truthy). */
  datatype JsValue = Undefined | Text(s: string) | Inherited(key: string)

  predicate JsTruthy(v: JsValue) {
    match v
    case Undefined => false
    case Text(s) => s != ""
    case Inherited(_) => true
  }

  /** `LANGS[code]` as JavaScript evaluates it: own properties first, then
      the prototype chain. */
  function LookupAsWritten(code: string): (v: JsValue)
    ensures code in Langs ==> v == Text(Langs[code])
    ensures code !in Langs && code !in InheritedKeys ==> v == Undefined
  {
    if code in Langs then Text(Langs[code])
    else if code in InheritedKeys then Inherited(code)
    else Undefined
  }

  /** `LANGS[code] || fallback`, as the source writes it. */
  function NameAsWritten(code: string, fallback: string): (v: JsValue) {
    var v := LookupAsWritten(code);
    if JsTruthy(v) then v else Text(fallback)
  }

  /** The lookup as written lets an inherited member through: with the query
      `source=constructor` the "language name" is `Object`'s constructor
      function, not a value of `LANGS`, and not the 'Spanish' fallback. */
  lemma InheritedKeyEscapesFallback()
    ensures NameAsWritten("constructor", SourceFallbackName) == Inherited("constructor")
    ensures forall name :: name in Langs.Values ==> NameAsWritten("constructor", SourceFallbackName) != Text(name)
  {
    assert "constructor" !in Langs;
  }

  /** Own-property lookup with fallback: the intended `LANGS[code] || fallback`. */
  function LanguageName(code: string, fallback: string): (name: string)
    requires fallback in Langs.Values
    ensures name in Langs.Values
    ensures code in Langs ==> name == Langs[code]
    ensures code !in Langs ==> name == fallback
  {
    if code in Langs then Langs[code] else fallback
  }

  /** The corrected lookup agrees with the written one on every code that is
      not an inherited member name. */
  lemma LanguageNameAgreesOffPrototype(code: string, fallback: string)
    requires fallback in Langs.Values
    requires code !in InheritedKeys
    ensures NameAsWritten(code, fallback) == Text(LanguageName(code, fallback))
  {
    if code in Langs {
      assert Langs[code] != "";
    }
  }

  /** The names a connection resolves from its `source`/`target` query
      parameters: a missing or empty parameter means 'es'/'en', and an
      unknown code means 'Spanish'/'English'. */
  function ResolveNames(sourceParam: Option<string>, targetParam: Option<string>): (names: LangPair)
    ensures names.source in Langs.Values && names.target in Langs.Values
    ensures !Truthy(sourceParam) ==> names.source == SourceFallbackName
    ensures !Truthy(targetParam) ==> names.target == TargetFallbackName
    ensures Truthy(sourceParam) && sourceParam.value in Langs ==> names.source == Langs[sourceParam.value]
    ensures Truthy(targetParam) && targetParam.value in Langs ==> names.target == Langs[targetParam.value]
    ensures Truthy(sourceParam) && sourceParam.value !in Langs ==> names.source == SourceFallbackName
    ensures Truthy(targetParam) && targetParam.value !in Langs ==> names.target == TargetFallbackName
  {
    assert Langs[DefaultSource] == SourceFallbackName && Langs[DefaultTarget] == TargetFallbackName;
    LangPair(
      LanguageName(OrElse(sourceParam, DefaultSource), SourceFallbackName),
      LanguageName(OrElse(targetParam, DefaultTarget), TargetFallbackName))
  }
}

=== FILE: decimal.dfy ===
/** Decimal text of integers, as JavaScript's `String(n)` writes an integral
    number of magnitude below 1e21, and the parse that inverts it. */
module Decimal {
  import opened Legs

  predicate IsDigit(c: char) {
    '0' <= c <= '9'
  }

  predicate AllDigits(t: string) {
    forall i :: 0 <= i < |t| ==> IsDigit(t[i])
  }

  function DigitChar(d: nat): (c: char)
    requires d < 10
    ensures IsDigit(c)
  {
    (48 + d) as char
  }

  function DigitValue(c: char): (d: nat)
    requires IsDigit(c)
    ensures d < 10
  {
    c as int - 48
  }

  /** The shortest decimal text of `n`, most significant digit first. */
  function NatText(n: nat): (t: string)
    ensures |t| > 0 && AllDigits(t)
    decreases n
  {
    if n < 10 then [DigitChar(n)] else NatText(n / 10) + [DigitChar(n % 10)]
  }

  /** The value of a string of decimal digits. */
  function DigitsValue(t: string): (n: nat)
    requires AllDigits(t)
    decreases |t|
  {
    if t == [] then 0 else DigitsValue(t[..|t| - 1]) * 10 + DigitValue(t[|t| - 1])
  }

  lemma {:induction false} NatTextRoundTrip(n: nat)
    ensures DigitsValue(NatText(n)) == n
    decreases n
  {
    var t := NatText(n);
    if n >= 10 {
      NatTextRoundTrip(n / 10);
      assert t[..|t| - 1] == NatText(n / 10);
    }
  }

  /** `String(n)` for an integer: a leading '-' for negatives. */
  function IntText(n: int): (t: string)
    ensures |t| > 0
    ensures (t[0] == '-') <==> n < 0
  {
    if n < 0 then "-" + NatText(-n) else NatText(n)
  }

  /** Reads back what `IntText` writes; anything else is `None`. */
  function ParseInt(t: string): (r: Option<int>)
    ensures r.Some? ==> |t| > 0
  {
    if |t| > 1 && t[0] == '-' && AllDigits(t[1..]) then Some(0 - DigitsValue(t[1..]) as int)
    else if |t| > 0 && AllDigits(t) then Some(DigitsValue(t))
    else None
  }

  lemma {:induction false} IntTextRoundTrip(n: int)
    ensures ParseInt(IntText(n)) == Some(n)
  {
    var t := IntText(n);
    if n < 0 {
      assert t[1..] == NatText(-n);
      NatTextRoundTrip(-n);
    } else {
      NatTextRoundTrip(n);
      assert IsDigit(t[0]);
    }
  }

  /** Distinct integers have distinct texts. */
  lemma IntTextInjective(m: int, n: int)
    requires IntText(m) == IntText(n)
    ensures m == n
  {
    IntTextRoundTrip(m);
    IntTextRoundTrip(n);
  }
}

=== FILE: legs.dfy ===
/** The wire vocabulary shared by both relay variants: the frames a relay
    session receives from the telephony leg (Twilio media stream) and the
    translation leg (OpenAI Realtime), the frames and socket actions it emits
    on each leg, and the abstract state of a WebSocket. */
module Legs {

  /** A JSON field that is either absent (`undefined`/`null`) or a string. */
  datatype Option<+T> = None | Some(value: T)

  /** JavaScript truthiness of an optional string: present and non-empty. */
  predicate Truthy(o: Option<string>) {
    o.Some? && o.value != ""
  }

  /** A JavaScript value used as a `Map` key: `undefined` (the field is
      missing), `null`, or a string. A `Map` compares keys by identity of
      value, so the three never meet: `map.get(null)` does not find an entry
      stored under `undefined`. */
  datatype JsKey = KeyUndefined | KeyNull | KeyString(text: string)

  /** JavaScript truthiness of such a key: a non-empty string. */
  predicate KeyTruthy(k: JsKey) {
    k.KeyString? && k.text != ""
  }

  /** `o || fallback` for an optional string. */
  function OrElse(o: Option<string>, fallback: string): (r: string)
    ensures Truthy(o) ==> r == o.value
    ensures !Truthy(o) ==> r == fallback
  {
    if Truthy(o) then o.value else fallback
  }

  /** The outcome of `JSON.parse` on an incoming frame: text that does not
      parse is `Malformed`; the text `null` parses to `Null`, on which reading
      any field throws. Any other value is `Json`: a non-object value reads
      every field as absent, like an object without them. */
  datatype Parsed<+T> = Malformed | Null | Json(value: T)

  /** `readyState` of a `ws` socket. */
  datatype SocketState = Connecting | Open | Closing | Closed

  /** `ws.close()`: an open socket starts its closing handshake; a socket in
      any other state is left as it is. */
  function CloseSocket(s: SocketState): (r: SocketState)
    ensures s == Open ==> r == Closing
    ensures s != Open ==> r == s
  {
    if s == Open then Closing else s
  }

  /** A frame is written only to a socket whose `readyState` is OPEN;
      otherwise it is dropped. */
  function SendIf<T>(sock: SocketState, frame: T): (out: seq<T>) {
    if sock == Open then [frame] else []
  }

  /** Telephony frames: `{event, start:{streamSid, callSid}, streamSid, media:{payload}}`. */
  datatype StartBody = StartBody(streamSid: Option<string>, callSid: JsKey)
  datatype MediaBody = MediaBody(payload: Option<string>)
  datatype TwilioMsg = TwilioMsg(
    event: string,
    start: Option<StartBody>,
    streamSid: Option<string>,
    media: Option<MediaBody>)

  const StartEvent := "start"
  const MediaEvent := "media"
  const StopEvent := "stop"

  /** Translation-leg server events: `{type, delta}`. */
  datatype OpenAiMsg = OpenAiMsg(kind: string, delta: Option<string>)

  /** What a session writes to (or does with) the telephony socket. */
  datatype TwilioAction =
    | Media(streamSid: Option<string>, payload: string)
    | Mark(streamSid: Option<string>, name: string)
    | Clear(streamSid: Option<string>)
    | CloseTwilio

  /** The payloads of the `media` frames in `out`, in order. */
  function MediaPayloads(out: seq<TwilioAction>): (payloads: seq<string>)
    ensures |payloads| <= |out|
    decreases |out|
  {
    if out == [] then []
    else (if out[0].Media? then [out[0].payload] else []) + MediaPayloads(out[1..])
  }

  lemma {:induction false} MediaPayloadsAppend(a: seq<TwilioAction>, b: seq<TwilioAction>)
    ensures MediaPayloads(a + b) == MediaPayloads(a) + MediaPayloads(b)
    decreases |a|
  {
    if a == [] {
      assert a + b == b;
    } else {
      assert (a + b)[0] == a[0];
      assert (a + b)[1..] == a[1..] + b;
      MediaPayloadsAppend(a[1..], b);
    }
  }

  /** What a session writes to (or does with) the translation socket.
      `SessionUpdate` stands for the one configuration message; it carries
      only the two language strings its instructions are built from. */
  datatype OpenAiAction =
    | SessionUpdate(source: string, target: string)
    | Append(audio: Option<string>)
    | ResponseCreate
    | ResponseCancel
    | CloseOpenAi

  /** A source/target language pair (codes, or the names resolved from them). */
  datatype LangPair = LangPair(source: string, target: string)

  const DefaultSource := "es"
  const DefaultTarget := "en"
  const DefaultPair := LangPair(DefaultSource, DefaultTarget)

  /** Every `Append` in `out` is preceded, in `out`, by a `SessionUpdate`,
      or the leg was already configured before `out` began. */
  ghost predicate AppendsAfterConfig(out: seq<OpenAiAction>, configured: bool) {
    forall i :: 0 <= i < |out| && out[i].Append? ==>
      configured || exists j :: 0 <= j < i && out[j].SessionUpdate?
  }

  /** Splitting a stream: if the first part keeps the rule and the second part
      keeps it given that the leg is configured after the first part, the
      whole stream keeps it. */
  lemma AppendsAfterConfigConcat(a: seq<OpenAiAction>, b: seq<OpenAiAction>, configured: bool, mid: bool)
    requires AppendsAfterConfig(a, configured)
    requires AppendsAfterConfig(b, mid)
    requires mid ==> configured || exists j :: 0 <= j < |a| && a[j].SessionUpdate?
    ensures AppendsAfterConfig(a + b, configured)
  {
    var ab := a + b;
    forall i | 0 <= i < |ab| && ab[i].Append?
      ensures configured || exists j :: 0 <= j < i && ab[j].SessionUpdate?
    {
      if i < |a| {
        assert a[i] == ab[i];
        if !configured {
          var j :| 0 <= j < i && a[j].SessionUpdate?;
          assert ab[j] == a[j];
        }
      } else {
        assert b[i - |a|] == ab[i];
        if !configured {
          if mid {
            var j :| 0 <= j < |a| && a[j].SessionUpdate?;
            assert ab[j] == a[j];
          } else {
            var j :| 0 <= j < i - |a| && b[j].SessionUpdate?;
            assert ab[j + |a|] == b[j];
          }
        }
      }
    }
  }
}

=== FILE: registry.dfy ===
/** server.js `callLanguages`: the process-wide map from a call id to the
    language pair chosen when the call was set up. A JavaScript `Map` accepts
    `undefined` and `null` as keys, so a missing call id and a `null` one are
    keys like any other, and two different ones. */
module CallRegistry {
  import opened Legs

  type Registry = map<JsKey, LangPair>

  /** The pair `POST /voice` stores: the query's codes, 'es'/'en' when a
      code is missing or empty. */
  function SetupPair(sourceQuery: Option<string>, targetQuery: Option<string>): (p: LangPair)
    ensures !Truthy(sourceQuery) ==> p.source == DefaultSource
    ensures !Truthy(targetQuery) ==> p.target == DefaultTarget
    ensures Truthy(sourceQuery) ==> p.source == sourceQuery.value
    ensures Truthy(targetQuery) ==> p.target == targetQuery.value
  {
    LangPair(OrElse(sourceQuery, DefaultSource), OrElse(targetQuery, DefaultTarget))
  }

  /** `POST /voice`: store the pair under the call id, replacing any earlier
      entry for it and leaving every other entry alone. */
  function Voice(reg: Registry, sourceQuery: Option<string>, targetQuery: Option<string>, callSid: JsKey): (r: Registry)
    ensures callSid in r && r[callSid] == SetupPair(sourceQuery, targetQuery)
    ensures r.Keys == reg.Keys + {callSid}
    ensures forall k :: k in reg && k != callSid ==> r[k] == reg[k]
  {
    reg[callSid := SetupPair(sourceQuery, targetQuery)]
  }

  /** `callLanguages.get(callSid) || {source:'es', target:'en'}` at stream
      start. The entry is read, not removed. */
  function Languages(reg: Registry, callSid: JsKey): (p: LangPair)
    ensures callSid in reg ==> p == reg[callSid]
    ensures callSid !in reg ==> p == DefaultPair
  {
    if callSid in reg then reg[callSid] else DefaultPair
  }

  /** `if (callSid) callLanguages.delete(callSid)` at stream stop. */
  function Forget(reg: Registry, callSid: JsKey): (r: Registry)
    ensures KeyTruthy(callSid) ==> r.Keys == reg.Keys - {callSid}
    ensures !KeyTruthy(callSid) ==> r == reg
    ensures forall k :: k in r ==> k in reg && r[k] == reg[k]
  {
    if KeyTruthy(callSid) then reg - {callSid} else reg
  }

  /** A stream started after its call's setup sees exactly the pair stored
      by that setup. */
  lemma VoiceThenLanguages(reg: Registry, sourceQuery: Option<string>, targetQuery: Option<string>, callSid: JsKey)
    ensures Languages(Voice(reg, sourceQuery, targetQuery, callSid), callSid) == SetupPair(sourceQuery, targetQuery)
  {
  }

  /** Setting up one call does not change what another call's stream sees. */
  lemma VoiceKeepsOtherCalls(reg: Registry, sourceQuery: Option<string>, targetQuery: Option<string>, callSid: JsKey, other: JsKey)
    requires other != callSid
    ensures Languages(Voice(reg, sourceQuery, targetQuery, callSid), other) == Languages(reg, other)
  {
  }

  /** A second setup of the same call overwrites the first. */
  lemma LastVoiceWins(reg: Registry, s1: Option<string>, t1: Option<string>, s2: Option<string>, t2: Option<string>, callSid: JsKey)
    ensures Voice(Voice(reg, s1, t1, callSid), s2, t2, callSid) == Voice(reg, s2, t2, callSid)
  {
  }

  /** After a stop with a call id, that call's stream would fall back to
      the default pair; a stop without one leaves every lookup unchanged. */
  lemma ForgetThenDefault(reg: Registry, callSid: JsKey, other: JsKey)
    ensures KeyTruthy(callSid) ==> Languages(Forget(reg, callSid), callSid) == DefaultPair
    ensures other != callSid || !KeyTruthy(callSid) ==> Languages(Forget(reg, callSid), other) == Languages(reg, other)
  {
  }

  /** A setup whose body has no `CallSid` stores under `undefined`; a stream
      whose start frame carries `"callSid": null` looks up `null`, misses
      that entry, and gets the default pair. */
  lemma MissingSetupSidMissesNullStart(reg: Registry, sourceQuery: Option<string>, targetQuery: Option<string>)
    requires KeyNull !in reg
    ensures Languages(Voice(reg, sourceQuery, targetQuery, KeyUndefined), KeyNull) == DefaultPair
    ensures Languages(Voice(reg, sourceQuery, targetQuery, KeyUndefined), KeyUndefined) == SetupPair(sourceQuery, targetQuery)
  {
  }
}

=== FILE: relay.dfy ===
/** The per-call relay of server.js as a pure state machine.

    A session starts with no translation socket; the telephony `start`
    frame reads the call's language pair from the process-wide registry and
    opens one. Both `message` handlers run inside a `try`, so a frame that
    does not parse, or whose handling throws, changes nothing; the `open`,
    `error` and `close` handlers have no `try`. The registry is
    shared with call setup (`POST /voice`), whose requests interleave with
    the session's events. */
module Relay {
  import opened Legs
  import opened Traces
  import opened CallRegistry

  const OutputAudioDeltaType := "response.output_audio.delta"

  /** The translation socket (`openAiWs`) and the pair captured when it was
      opened, which its `open` handler puts into the configuration. */
  datatype Backend = Backend(socket: SocketState, langs: LangPair)

  /** The closure variables `callSid` (a `Map` key, `null` until `start`),
      `streamSid`, `openAiWs` (`None` while null) and the telephony socket's
      `readyState`. */
  datatype Session = Session(
    callSid: JsKey,
    streamSid: Option<string>,
    openAi: Option<Backend>,
    twilio: SocketState)

  /** The registry together with one session. */
  datatype World = World(registry: Registry, session: Session)

  datatype Event =
    | CallSetup(sourceQuery: Option<string>, targetQuery: Option<string>, setupCallSid: JsKey)
    | TwilioMessage(frame: Parsed<TwilioMsg>)
    | TwilioClose
    | OpenAiOpen
    | OpenAiMessage(reply: Parsed<OpenAiMsg>)
    | OpenAiError
    | OpenAiClose

  type Out = Emitted<World, TwilioAction, OpenAiAction>

  /** A new telephony connection. */
  function Connect(reg: Registry): (w: World)
    ensures w.registry == reg
    ensures w.session.callSid == KeyNull && w.session.streamSid == None
    ensures w.session.openAi == None && w.session.twilio == Open
  {
    World(reg, Session(KeyNull, None, None, Open))
  }

  /** The translation socket exists and is OPEN. */
  predicate LegOpen(s: Session) {
    s.openAi.Some? && s.openAi.value.socket == Open
  }

  /** Close the translation socket if it is OPEN. */
  function CloseBackend(s: Session): (r: Session)
    ensures LegOpen(s) ==> r.openAi == Some(s.openAi.value.(socket := Closing))
    ensures !LegOpen(s) ==> r == s
    ensures r.callSid == s.callSid && r.streamSid == s.streamSid && r.twilio == s.twilio
  {
    if LegOpen(s) then s.(openAi := Some(s.openAi.value.(socket := Closing))) else s
  }

  /** A parsed telephony frame. */
  function OnTwilioMessage(w: World, msg: TwilioMsg): (o: Out)
    // 'start': ids from the start body, a new translation socket configured
    // with the registry's pair for the call (or the default), registry untouched
    ensures msg.event == StartEvent && msg.start.Some? ==>
        && o.next.registry == w.registry
        && o.next.session.callSid == msg.start.value.callSid
        && o.next.session.streamSid == msg.start.value.streamSid
        && o.next.session.openAi == Some(Backend(Connecting, Languages(w.registry, msg.start.value.callSid)))
        && o.next.session.twilio == w.session.twilio
        && o.toTwilio == [] && o.toOpenAi == []
    // 'media': forwarded whenever the translation socket is OPEN
    ensures msg.event == MediaEvent && LegOpen(w.session) && msg.media.Some? ==>
        o == Emitted(w, [], [Append(msg.media.value.payload)])
    // 'stop': close the translation socket, drop the call's registry entry
    ensures msg.event == StopEvent ==>
        && o.next.registry == Forget(w.registry, w.session.callSid)
        && o.next.session == CloseBackend(w.session)
        && o.toTwilio == []
        && o.toOpenAi == (if LegOpen(w.session) then [CloseOpenAi] else [])
    // a frame whose handling throws (no start body, no media body) and any
    // other frame change nothing
    ensures msg.event == StartEvent && msg.start.None? ==> o == Emitted(w, [], [])
    ensures msg.event == MediaEvent && !(LegOpen(w.session) && msg.media.Some?) ==> o == Emitted(w, [], [])
    ensures msg.event !in {StartEvent, MediaEvent, StopEvent} ==> o == Emitted(w, [], [])
  {
    var s := w.session;
    if msg.event == StartEvent then
      if msg.start.None? then Emitted(w, [], [])
      else
        var callSid := msg.start.value.callSid;
        var langs := Languages(w.registry, callSid);
        Emitted(World(w.registry, s.(callSid := callSid, streamSid := msg.start.value.streamSid,
                                     openAi := Some(Backend(Connecting, langs)))), [], [])
    else if msg.event == MediaEvent then
      if LegOpen(s) && msg.media.Some? then Emitted(w, [], [Append(msg.media.value.payload)])
      else Emitted(w, [], [])
    else if msg.event == StopEvent then
      Emitted(World(Forget(w.registry, s.callSid), CloseBackend(s)), [],
              if LegOpen(s) then [CloseOpenAi] else [])
    else
      Emitted(w, [], [])
  }

  /** The telephony socket closed: close the translation socket if OPEN. The
      registry entry stays. */
  function OnTwilioClose(w: World): (o: Out)
    ensures o.next.registry == w.registry
    ensures o.next.session.twilio == Closed
    ensures LegOpen(w.session) <==> o.toOpenAi == [CloseOpenAi]
    ensures !LegOpen(w.session) ==> o.toOpenAi == []
    ensures !LegOpen(o.next.session) && o.toTwilio == []
    // only the translation socket's readyState changes; the handle, its pair and the ids stay
    ensures o.next.session.callSid == w.session.callSid && o.next.session.streamSid == w.session.streamSid
    ensures w.session.openAi.None? ==> o.next.session.openAi == None
    ensures w.session.openAi.Some? ==>
        o.next.session.openAi == Some(Backend(CloseSocket(w.session.openAi.value.socket), w.session.openAi.value.langs))
  {
    Emitted(World(w.registry, CloseBackend(w.session).(twilio := Closed)), [],
            if LegOpen(w.session) then [CloseOpenAi] else [])
  }

  /** The translation socket opened: send the configuration built from the
      pair captured at start. */
  function OnOpenAiOpen(w: World): (o: Out)
    ensures w.session.openAi.Some? ==>
        && LegOpen(o.next.session)
        && o.toOpenAi == [SessionUpdate(w.session.openAi.value.langs.source, w.session.openAi.value.langs.target)]
    ensures w.session.openAi.None? ==> o == Emitted(w, [], [])
    ensures o.next.registry == w.registry && o.toTwilio == []
    // the pair captured at start stays with the socket; the ids and the telephony socket stay
    ensures w.session.openAi.Some? ==> o.next.session.openAi.value.langs == w.session.openAi.value.langs
    ensures o.next.session.callSid == w.session.callSid && o.next.session.streamSid == w.session.streamSid
    ensures o.next.session.twilio == w.session.twilio
  {
    match w.session.openAi
    case None => Emitted(w, [], [])
    case Some(leg) =>
      Emitted(World(w.registry, w.session.(openAi := Some(leg.(socket := Open)))), [],
              [SessionUpdate(leg.langs.source, leg.langs.target)])
  }

  /** A parsed translation-leg event: only a non-empty
      `response.output_audio.delta` does anything. */
  function OnOpenAiMessage(w: World, msg: OpenAiMsg): (o: Out)
    ensures o.next == w && o.toOpenAi == []
    ensures |o.toTwilio| <= 1
    ensures o.toTwilio != [] <==>
        w.session.openAi.Some? && msg.kind == OutputAudioDeltaType && Truthy(msg.delta) && w.session.twilio == Open
    ensures o.toTwilio != [] ==> o.toTwilio == [Media(w.session.streamSid, msg.delta.value)]
  {
    if w.session.openAi.Some? && msg.kind == OutputAudioDeltaType && Truthy(msg.delta) then
      Emitted(w, SendIf(w.session.twilio, Media(w.session.streamSid, msg.delta.value)), [])
    else
      Emitted(w, [], [])
  }

  /** The translation socket closed; no relay state changes. */
  function OnOpenAiClose(w: World): (o: Out)
    ensures o.next.registry == w.registry && o.toTwilio == [] && o.toOpenAi == []
    ensures o.next.session.callSid == w.session.callSid && o.next.session.streamSid == w.session.streamSid
    ensures o.next.session.twilio == w.session.twilio
    ensures w.session.openAi.Some? ==> o.next.session.openAi == Some(w.session.openAi.value.(socket := Closed))
    ensures w.session.openAi.None? ==> o.next == w
  {
    match w.session.openAi
    case None => Emitted(w, [], [])
    case Some(leg) => Emitted(World(w.registry, w.session.(openAi := Some(leg.(socket := Closed)))), [], [])
  }

  /** One event: a call setup anywhere in the process, or an event of this
      session's legs. A frame that parses to `null` throws on its first field
      read, inside the handler's `try`, and so is dropped like one that does
      not parse. */
  function Step(w: World, e: Event): (o: Out)
    ensures e.CallSetup? ==>
        o == Emitted(w.(registry := Voice(w.registry, e.sourceQuery, e.targetQuery, e.setupCallSid)), [], [])
    ensures e.TwilioMessage? && !e.frame.Json? ==> o == Emitted(w, [], [])
    ensures e.OpenAiMessage? && !e.reply.Json? ==> o == Emitted(w, [], [])
    ensures e.OpenAiError? ==> o == Emitted(w, [], [])
    // the registry changes only on call setup and on 'stop'
    ensures !e.CallSetup? && !(e.TwilioMessage? && e.frame.Json? && e.frame.value.event == StopEvent) ==>
        o.next.registry == w.registry
    ensures (exists i :: 0 <= i < |o.toOpenAi| && o.toOpenAi[i].Append?) ==> LegOpen(w.session)
    // the translation socket becomes OPEN only by its open event, which sends the configuration
    ensures LegOpen(o.next.session) && !LegOpen(w.session) ==>
        e.OpenAiOpen? && |o.toOpenAi| == 1 && o.toOpenAi[0].SessionUpdate?
  {
    match e
    case CallSetup(sourceQuery, targetQuery, setupCallSid) =>
      Emitted(w.(registry := Voice(w.registry, sourceQuery, targetQuery, setupCallSid)), [], [])
    case TwilioMessage(frame) =>
      if frame.Json? then OnTwilioMessage(w, frame.value) else Emitted(w, [], [])
    case TwilioClose => OnTwilioClose(w)
    case OpenAiOpen => OnOpenAiOpen(w)
    case OpenAiMessage(reply) =>
      if reply.Json? then OnOpenAiMessage(w, reply.value) else Emitted(w, [], [])
    case OpenAiError => Emitted(w, [], [])
    case OpenAiClose => OnOpenAiClose(w)
  }

  function Run(w: World, evs: seq<Event>): (o: Out) {
    Traces.Run(Step, w, evs)
  }
}

=== FILE: relay_debug.dfy ===
/** The per-call relay of server-debug.js as a pure state machine.

    One telephony WebSocket connection owns one session. The session opens
    its translation-leg socket at once, and from then on handles an ordered
    stream of events from both legs; each event yields the next session and
    the actions written to each leg. `Date.now()` is the `now` carried by a
    translation-leg message. */
module RelayDebug {
  import opened Legs
  import opened Decimal
  import DebugLangs
  import opened Traces

  const AudioDeltaType := "response.audio.delta"
  const SpeechStartedType := "input_audio_buffer.speech_started"
  const SpeechStoppedType := "input_audio_buffer.speech_stopped"
  const ResponseDoneType := "response.done"

  /** Marks are written only when more than this many milliseconds have
      passed since the last one. */
  const MarkGapMs := 1000

  /** The closure variables of one connection (`sid`, `ready`, `mark`,
      `prog`), the language names fixed at connection time, and the
      `readyState` of both sockets. */
  datatype Session = Session(
    names: LangPair,
    sid: Option<string>,
    twilio: SocketState,
    openAi: SocketState,
    ready: bool,
    mark: int,
    prog: bool)

  datatype Event =
    | TwilioMessage(frame: Parsed<TwilioMsg>)
    | TwilioClose
    | OpenAiOpen
    | OpenAiMessage(reply: Parsed<OpenAiMsg>, now: int)
    | OpenAiError
    | OpenAiClose

  /** The session after one event (or stream) and what it wrote to each leg, in order. */
  type Out = Emitted<Session, TwilioAction, OpenAiAction>

  /** A new telephony connection: names from the query, nothing received
      yet, translation socket still connecting. */
  function Connect(sourceParam: Option<string>, targetParam: Option<string>): (s: Session)
    ensures s.names.source in DebugLangs.Langs.Values && s.names.target in DebugLangs.Langs.Values
    ensures !Truthy(sourceParam) ==> s.names.source == DebugLangs.SourceFallbackName
    ensures !Truthy(targetParam) ==> s.names.target == DebugLangs.TargetFallbackName
    ensures Truthy(sourceParam) && sourceParam.value in DebugLangs.Langs ==>
        s.names.source == DebugLangs.Langs[sourceParam.value]
    ensures Truthy(targetParam) && targetParam.value in DebugLangs.Langs ==>
        s.names.target == DebugLangs.Langs[targetParam.value]
    ensures Truthy(sourceParam) && sourceParam.value !in DebugLangs.Langs ==> s.names.source == DebugLangs.SourceFallbackName
    ensures Truthy(targetParam) && targetParam.value !in DebugLangs.Langs ==> s.names.target == DebugLangs.TargetFallbackName
    ensures s.sid == None && !s.ready && !s.prog && s.mark == 0
    ensures s.twilio == Open && s.openAi == Connecting
  {
    Session(DebugLangs.ResolveNames(sourceParam, targetParam), None, Open, Connecting, false, 0, false)
  }

  /** `'m_' + now`. */
  function MarkName(now: int): (name: string) {
    "m_" + IntText(now)
  }

  /** The timestamp a mark name was made from. */
  function MarkStamp(name: string): (stamp: Option<int>) {
    if |name| >= 2 && name[..2] == "m_" then ParseInt(name[2..]) else None
  }

  lemma MarkNameRoundTrip(now: int)
    ensures MarkStamp(MarkName(now)) == Some(now)
  {
    assert MarkName(now)[2..] == IntText(now);
    IntTextRoundTrip(now);
  }

  /** `(d.start && d.start.streamSid) || d.streamSid`. */
  function StartSid(msg: TwilioMsg): (sid: Option<string>) {
    if msg.start.Some? && Truthy(msg.start.value.streamSid) then msg.start.value.streamSid
    else msg.streamSid
  }

  /** The gate on inbound audio: a media frame with a payload, the
      translation leg configured and its socket open. */
  predicate ForwardsAudio(s: Session, msg: TwilioMsg) {
    && msg.event == MediaEvent
    && msg.media.Some? && Truthy(msg.media.value.payload)
    && s.ready && s.openAi == Open
  }

  /** A parsed telephony frame. */
  function OnTwilioMessage(s: Session, msg: TwilioMsg): (o: Out)
    // telephony frames never touch the translation leg's state
    ensures o.next.names == s.names && o.next.openAi == s.openAi
    ensures o.next.ready == s.ready && o.next.prog == s.prog && o.next.mark == s.mark
    // audio goes out exactly when the gate is open, and it is the frame's payload
    ensures o.toOpenAi != [] <==> ForwardsAudio(s, msg)
    ensures ForwardsAudio(s, msg) ==> o.toOpenAi == [Append(msg.media.value.payload)]
    // 'start' records the stream id, preferring start.streamSid
    ensures msg.event == StartEvent && msg.start.Some? && Truthy(msg.start.value.streamSid) ==>
        o.next.sid == msg.start.value.streamSid
    ensures msg.event == StartEvent && !(msg.start.Some? && Truthy(msg.start.value.streamSid)) ==>
        o.next.sid == msg.streamSid
    ensures msg.event != StartEvent ==> o.next.sid == s.sid
    // 'stop' closes the telephony socket itself
    ensures msg.event == StopEvent ==> o.next.twilio == CloseSocket(s.twilio)
    ensures msg.event == StopEvent && s.twilio == Open ==> o.toTwilio == [CloseTwilio]
    ensures msg.event != StopEvent ==> o.next.twilio == s.twilio
    ensures msg.event != StopEvent || s.twilio != Open ==> o.toTwilio == []
  {
    if msg.event == StartEvent then
      Emitted(s.(sid := StartSid(msg)), [], [])
    else if msg.event == MediaEvent then
      if ForwardsAudio(s, msg) then Emitted(s, [], [Append(msg.media.value.payload)])
      else Emitted(s, [], [])
    else if msg.event == StopEvent then
      Emitted(s.(twilio := CloseSocket(s.twilio)), SendIf(s.twilio, CloseTwilio), [])
    else
      Emitted(s, [], [])
  }

  /** The telephony socket closed: close the translation socket if it is open. */
  function OnTwilioClose(s: Session): (o: Out)
    ensures o.next.twilio == Closed
    ensures o.next.openAi == CloseSocket(s.openAi)
    ensures s.openAi == Open <==> o.toOpenAi == [CloseOpenAi]
    ensures s.openAi != Open ==> o.toOpenAi == []
    ensures o.toTwilio == []
    ensures o.next.names == s.names
    ensures o.next.ready == s.ready && o.next.prog == s.prog && o.next.sid == s.sid && o.next.mark == s.mark
  {
    Emitted(s.(twilio := Closed, openAi := CloseSocket(s.openAi)), [], SendIf(s.openAi, CloseOpenAi))
  }

  /** The translation socket opened: send the configuration, then set `ready`. */
  function OnOpenAiOpen(s: Session): (o: Out)
    ensures o.next.ready && o.next.openAi == Open
    ensures o.toOpenAi == [SessionUpdate(s.names.source, s.names.target)]
    ensures o.toTwilio == []
    ensures o.next.names == s.names
    ensures o.next.prog == s.prog && o.next.sid == s.sid && o.next.mark == s.mark && o.next.twilio == s.twilio
  {
    var up := s.(openAi := Open);
    Emitted(up.(ready := true), [], SendIf(up.openAi, SessionUpdate(s.names.source, s.names.target)))
  }

  /** A translated-audio chunk to play: the right type, a payload, and a
      stream id to tag it with. */
  predicate PlaysDelta(s: Session, msg: OpenAiMsg) {
    msg.kind == AudioDeltaType && Truthy(msg.delta) && Truthy(s.sid)
  }

  /** The caller spoke over a response in progress. */
  predicate BargesIn(s: Session, msg: OpenAiMsg) {
    msg.kind == SpeechStartedType && s.prog && Truthy(s.sid)
  }

  /** A parsed translation-leg event received at time `now`. */
  function OnOpenAiMessage(s: Session, msg: OpenAiMsg, now: int): (o: Out)
    ensures o.next.names == s.names && o.next.sid == s.sid && o.next.ready == s.ready
    ensures o.next.twilio == s.twilio && o.next.openAi == s.openAi
    // frames to a socket that is not open are dropped
    ensures s.twilio != Open ==> o.toTwilio == []
    ensures s.openAi != Open ==> o.toOpenAi == []
    // audio delta: the chunk, tagged with the stream id, then maybe a mark
    ensures PlaysDelta(s, msg) && s.twilio == Open ==> 1 <= |o.toTwilio| && o.toTwilio[0] == Media(s.sid, msg.delta.value)
    ensures PlaysDelta(s, msg) && now - s.mark > MarkGapMs ==> o.next.mark == now
    ensures PlaysDelta(s, msg) && now - s.mark > MarkGapMs && s.twilio == Open ==>
        o.toTwilio == [Media(s.sid, msg.delta.value), Mark(s.sid, MarkName(now))]
    ensures PlaysDelta(s, msg) && now - s.mark <= MarkGapMs && s.twilio == Open ==>
        o.toTwilio == [Media(s.sid, msg.delta.value)]
    ensures PlaysDelta(s, msg) ==> o.toOpenAi == [] && o.next.prog == s.prog
    // a delta without a payload, or before the stream id is known, is ignored
    ensures msg.kind == AudioDeltaType && !PlaysDelta(s, msg) ==> o == Emitted(s, [], [])
    // the mark moves only forward, and only by more than the gap
    ensures o.next.mark != s.mark ==> PlaysDelta(s, msg) && o.next.mark == now && now > s.mark + MarkGapMs
    // barge-in: clear the caller's playback, cancel the response
    ensures BargesIn(s, msg) ==> !o.next.prog
    ensures BargesIn(s, msg) && s.twilio == Open ==> o.toTwilio == [Clear(s.sid)]
    ensures BargesIn(s, msg) && s.openAi == Open ==> o.toOpenAi == [ResponseCancel]
    ensures msg.kind == SpeechStartedType && !BargesIn(s, msg) ==> o == Emitted(s, [], [])
    // end of caller speech: request one response unless one is in progress
    ensures msg.kind == SpeechStoppedType && !s.prog ==> o.next.prog && o.toTwilio == []
    ensures msg.kind == SpeechStoppedType && !s.prog && s.openAi == Open ==> o.toOpenAi == [ResponseCreate]
    ensures msg.kind == SpeechStoppedType && s.prog ==> o == Emitted(s, [], [])
    ensures ResponseCreate in o.toOpenAi ==> !s.prog && o.next.prog
    // response finished
    ensures msg.kind == ResponseDoneType ==> o == Emitted(s.(prog := false), [], [])
    // any other type is ignored
    ensures msg.kind !in {AudioDeltaType, SpeechStartedType, SpeechStoppedType, ResponseDoneType} ==>
        o == Emitted(s, [], [])
  {
    if PlaysDelta(s, msg) then
      var media := SendIf(s.twilio, Media(s.sid, msg.delta.value));
      if now - s.mark > MarkGapMs then
        Emitted(s.(mark := now), media + SendIf(s.twilio, Mark(s.sid, MarkName(now))), [])
      else
        Emitted(s, media, [])
    else if msg.kind == SpeechStartedType then
      if s.prog && Truthy(s.sid) then
        Emitted(s.(prog := false), SendIf(s.twilio, Clear(s.sid)), SendIf(s.openAi, ResponseCancel))
      else
        Emitted(s, [], [])
    else if msg.kind == SpeechStoppedType then
      if !s.prog then Emitted(s.(prog := true), [], SendIf(s.openAi, ResponseCreate))
      else Emitted(s, [], [])
    else if msg.kind == ResponseDoneType then
      Emitted(s.(prog := false), [], [])
    else
      Emitted(s, [], [])
  }

  /** The translation socket closed: not ready, no response in progress. */
  function OnOpenAiClose(s: Session): (o: Out)
    ensures !o.next.ready && !o.next.prog && o.next.openAi == Closed
    ensures o.toTwilio == [] && o.toOpenAi == []
    ensures o.next.names == s.names
    ensures o.next.sid == s.sid && o.next.mark == s.mark && o.next.twilio == s.twilio
  {
    Emitted(s.(ready := false, prog := false, openAi := Closed), [], [])
  }

  /** One event of either leg. A frame that does not parse is dropped, and
      a translation-leg error is only logged. A frame that parses to `null`
      is dropped too: this is the corrected behaviour (see `StepAsWritten`). */
  function Step(s: Session, e: Event): (o: Out)
    ensures e.TwilioMessage? && !e.frame.Json? ==> o == Emitted(s, [], [])
    ensures e.OpenAiMessage? && !e.reply.Json? ==> o == Emitted(s, [], [])
    ensures e.OpenAiError? ==> o == Emitted(s, [], [])
    ensures s.openAi != Open && !e.OpenAiOpen? ==> o.toOpenAi == []
    ensures (exists i :: 0 <= i < |o.toOpenAi| && o.toOpenAi[i].Append?) ==> s.ready && s.openAi == Open
    // `ready` is raised only by the open event, which has just sent the configuration
    ensures o.next.ready && !s.ready ==>
        e.OpenAiOpen? && o.toOpenAi == [SessionUpdate(s.names.source, s.names.target)]
  {
    match e
    case TwilioMessage(frame) =>
      if frame.Json? then OnTwilioMessage(s, frame.value) else Emitted(s, [], [])
    case TwilioClose => OnTwilioClose(s)
    case OpenAiOpen => OnOpenAiOpen(s)
    case OpenAiMessage(reply, now) =>
      if reply.Json? then OnOpenAiMessage(s, reply.value, now) else Emitted(s, [], [])
    case OpenAiError => Emitted(s, [], [])
    case OpenAiClose => OnOpenAiClose(s)
  }

  /** What one event does as the code is written: both message handlers
      read a field of the parsed value outside any `try` (`d.event`,
      `e.type`), so a frame that parses to `null` throws an uncaught
      `TypeError`, which ends the process and every session in it. */
  datatype Outcome = Crashed | Continued(out: Out)

  /** A frame of either leg that parses to `null`. */
  predicate NullFrame(e: Event) {
    (e.TwilioMessage? && e.frame.Null?) || (e.OpenAiMessage? && e.reply.Null?)
  }

  function StepAsWritten(s: Session, e: Event): (r: Outcome)
    ensures r.Crashed? <==> NullFrame(e)
    ensures r.Continued? ==> r.out == Step(s, e)
  {
    if NullFrame(e) then Crashed else Continued(Step(s, e))
  }

  /** A whole event stream: the final session and everything written to
      each leg, in order. */
  function Run(s: Session, evs: seq<Event>): (o: Out) {
    Traces.Run(Step, s, evs)
  }

  /** The sessions a stream passes through: `States(s, evs)[k]` is the
      session just before `evs[k]`. */
  function States(s: Session, evs: seq<Event>): (ss: seq<Session>)
    ensures |ss| == |evs| + 1 && ss[0] == s
  {
    Traces.States(Step, s, evs)
  }
}

=== FILE: relay_debug_traces.dfy ===
/** Properties of whole event streams of the server-debug.js relay, proved by
    induction over the stream. */
module RelayDebugTraces {
  import opened Legs
  import opened RelayDebug
  import Traces

  // ---------------------------------------------------------------------
  // Inbound audio never precedes the configuration.

  /** Every `input_audio_buffer.append` a stream writes comes after a
      `session.update` in the same stream, unless the session was already
      ready when the stream began. */
  lemma {:induction false} AppendsFollowConfig(s: Session, evs: seq<Event>)
    ensures AppendsAfterConfig(Run(s, evs).toOpenAi, s.ready)
    decreases |evs|
  {
    if evs != [] {
      var first := Step(s, evs[0]);
      var rest := Run(first.next, evs[1..]);
      AppendsFollowConfig(first.next, evs[1..]);
      assert AppendsAfterConfig(first.toOpenAi, s.ready);
      if first.next.ready && !s.ready {
        assert first.toOpenAi[0].SessionUpdate?;
      }
      AppendsAfterConfigConcat(first.toOpenAi, rest.toOpenAi, s.ready, first.next.ready);
    }
  }

  /** From a fresh connection, in every interleaving of events of the two
      legs, no audio reaches the translation leg before its configuration. */
  lemma NoAppendBeforeConfig(sourceParam: Option<string>, targetParam: Option<string>, evs: seq<Event>)
    ensures var out := Run(Connect(sourceParam, targetParam), evs).toOpenAi;
            forall i :: 0 <= i < |out| && out[i].Append? ==>
              exists j :: 0 <= j < i && out[j].SessionUpdate?
  {
    AppendsFollowConfig(Connect(sourceParam, targetParam), evs);
  }

  // ---------------------------------------------------------------------
  // At most one response requested at a time.

  predicate EmitsCreate(s: Session, e: Event) {
    ResponseCreate in Step(s, e).toOpenAi
  }

  /** The events that end a response turn: `response.done`, a barge-in, or
      the translation socket closing. */
  predicate EndsTurn(s: Session, e: Event) {
    || e.OpenAiClose?
    || (e.OpenAiMessage? && e.reply.Json? &&
        (e.reply.value.kind == ResponseDoneType || BargesIn(s, e.reply.value)))
  }

  /** A `response.create` is written only when no response is in progress,
      and it puts one in progress. */
  lemma CreateStartsTurn(s: Session, e: Event)
    requires EmitsCreate(s, e)
    ensures !s.prog && Step(s, e).next.prog
  {
  }

  /** `prog` falls only on a turn-ending event. */
  lemma ProgFallsOnlyOnTurnEnd(s: Session, e: Event)
    requires s.prog && !Step(s, e).next.prog
    ensures EndsTurn(s, e)
  {
  }

  lemma {:induction false} ProgFallsBetween(s: Session, evs: seq<Event>, a: nat, b: nat)
    requires a < b <= |evs|
    requires States(s, evs)[a].prog && !States(s, evs)[b].prog
    ensures exists k :: a <= k < b && EndsTurn(States(s, evs)[k], evs[k])
    decreases b - a
  {
    var ss := States(s, evs);
    Traces.StatesStep(Step, s, evs, a);
    if !ss[a + 1].prog {
      ProgFallsOnlyOnTurnEnd(ss[a], evs[a]);
    } else {
      ProgFallsBetween(s, evs, a + 1, b);
    }
  }

  /** Between any two `response.create` frames of a stream lies an event that
      ended the first response: no duplicate response requests. */
  lemma OneResponseAtATime(s: Session, evs: seq<Event>, i: nat, j: nat)
    requires i < j < |evs|
    requires EmitsCreate(States(s, evs)[i], evs[i])
    requires EmitsCreate(States(s, evs)[j], evs[j])
    ensures exists k :: i < k < j && EndsTurn(States(s, evs)[k], evs[k])
  {
    var ss := States(s, evs);
    CreateStartsTurn(ss[i], evs[i]);
    CreateStartsTurn(ss[j], evs[j]);
    Traces.StatesStep(Step, s, evs, i);
    ProgFallsBetween(s, evs, i + 1, j);
  }

  // ---------------------------------------------------------------------
  // Progress marks.

  /** The timestamps encoded in the mark frames of a telephony stream. */
  function MarkStamps(out: seq<TwilioAction>): (stamps: seq<int>)
    decreases |out|
  {
    if out == [] then []
    else
      var here := if out[0].Mark? && MarkStamp(out[0].name).Some? then [MarkStamp(out[0].name).value] else [];
      here + MarkStamps(out[1..])
  }

  lemma {:induction false} MarkStampsAppend(a: seq<TwilioAction>, b: seq<TwilioAction>)
    ensures MarkStamps(a + b) == MarkStamps(a) + MarkStamps(b)
    decreases |a|
  {
    if a == [] {
      assert a + b == b;
    } else {
      assert (a + b)[0] == a[0];
      assert (a + b)[1..] == a[1..] + b;
      MarkStampsAppend(a[1..], b);
    }
  }

  /** Each stamp is more than `MarkGapMs` after the one before it, the first
      one more than `MarkGapMs` after `after`. */
  predicate Spaced(ts: seq<int>, after: int)
    decreases |ts|
  {
    ts == [] || (ts[0] > after + MarkGapMs && Spaced(ts[1..], ts[0]))
  }

  lemma {:induction false} SpacedFromEarlier(ts: seq<int>, after: int, earlier: int)
    requires earlier <= after && Spaced(ts, after)
    ensures Spaced(ts, earlier)
  {
  }

  /** One event writes at most one mark; a mark written is stamped with the
      event's time, which becomes the session's `mark`, more than a gap after
      the old one. */
  lemma StepMarks(s: Session, e: Event)
    ensures Step(s, e).next.mark >= s.mark
    // every mark frame carries a stamp, so none is missing from `MarkStamps`
    ensures forall a :: a in Step(s, e).toTwilio && a.Mark? ==> MarkStamp(a.name).Some?
    ensures var o := Step(s, e);
            || MarkStamps(o.toTwilio) == []
            || (&& MarkStamps(o.toTwilio) == [o.next.mark]
                && o.next.mark > s.mark + MarkGapMs
                && e.OpenAiMessage? && e.now == o.next.mark)
  {
    var o := Step(s, e);
    assert MarkStamps([]) == [];
    match e
    case OpenAiMessage(reply, now) =>
      if reply.Json? && PlaysDelta(s, reply.value) && s.twilio == Open {
        var media := Media(s.sid, reply.value.delta.value);
        assert MarkStamps([media]) == [];
        if now - s.mark > MarkGapMs {
          MarkNameRoundTrip(now);
          assert o.toTwilio == [media] + [Mark(s.sid, MarkName(now))];
          MarkStampsAppend([media], [Mark(s.sid, MarkName(now))]);
        }
      } else if reply.Json? && BargesIn(s, reply.value) && s.twilio == Open {
        assert MarkStamps([Clear(s.sid)]) == [];
      }
    case TwilioMessage(frame) =>
      if frame.Json? && frame.value.event == StopEvent && s.twilio == Open {
        assert MarkStamps([CloseTwilio]) == [];
      }
    case _ =>
  }

  /** Over any stream, the marks written to the telephony leg are spaced more
      than `MarkGapMs` apart (strictly increasing in particular), and the
      first comes more than `MarkGapMs` after the session's last mark. */
  lemma {:induction false} MarksSpaced(s: Session, evs: seq<Event>)
    ensures Spaced(MarkStamps(Run(s, evs).toTwilio), s.mark)
    ensures Run(s, evs).next.mark >= s.mark
    decreases |evs|
  {
    if evs == [] {
      assert MarkStamps([]) == [];
    } else {
      var first := Step(s, evs[0]);
      var rest := Run(first.next, evs[1..]);
      StepMarks(s, evs[0]);
      MarksSpaced(first.next, evs[1..]);
      MarkStampsAppend(first.toTwilio, rest.toTwilio);
      var here := MarkStamps(first.toTwilio);
      var later := MarkStamps(rest.toTwilio);
      if here == [] {
        assert here + later == later;
        SpacedFromEarlier(later, first.next.mark, s.mark);
      } else {
        assert (here + later)[0] == first.next.mark;
        assert (here + later)[1..] == later;
      }
    }
  }

  /** `t` is the arrival time of one of the stream's translation-leg messages. */
  predicate MessageAt(evs: seq<Event>, t: int) {
    exists k :: 0 <= k < |evs| && evs[k].OpenAiMessage? && evs[k].now == t
  }

  /** Every mark written in a stream is stamped with the time of one of the
      stream's translation-leg messages. */
  lemma {:induction false} MarkStampsWithin(s: Session, evs: seq<Event>)
    ensures forall t :: t in MarkStamps(Run(s, evs).toTwilio) ==> MessageAt(evs, t)
    decreases |evs|
  {
    if evs == [] {
      assert MarkStamps([]) == [];
    } else {
      var first := Step(s, evs[0]);
      var rest := Run(first.next, evs[1..]);
      StepMarks(s, evs[0]);
      MarkStampsWithin(first.next, evs[1..]);
      MarkStampsAppend(first.toTwilio, rest.toTwilio);
      forall t | t in MarkStamps(Run(s, evs).toTwilio)
        ensures MessageAt(evs, t)
      {
        if t in MarkStamps(first.toTwilio) {
          assert evs[0].OpenAiMessage? && evs[0].now == t;
        } else {
          assert MessageAt(evs[1..], t);
          var k :| 0 <= k < |evs[1..]| && evs[1..][k].OpenAiMessage? && evs[1..][k].now == t;
          assert evs[k + 1] == evs[1..][k];
        }
      }
    }
  }

  /** The number of mark frames in a telephony stream. */
  function MarkCount(out: seq<TwilioAction>): (n: nat)
    ensures n <= |out|
    decreases |out|
  {
    if out == [] then 0 else (if out[0].Mark? then 1 else 0) + MarkCount(out[1..])
  }

  /** When every mark frame's name parses, each frame has its stamp. */
  lemma {:induction false} StampPerMark(out: seq<TwilioAction>)
    requires forall a :: a in out && a.Mark? ==> MarkStamp(a.name).Some?
    ensures |MarkStamps(out)| == MarkCount(out)
    decreases |out|
  {
    if out != [] {
      assert forall a :: a in out[1..] ==> a in out;
      StampPerMark(out[1..]);
    }
  }

  /** Every mark frame a stream writes carries a stamp. */
  lemma {:induction false} RunMarksParse(s: Session, evs: seq<Event>)
    ensures forall a :: a in Run(s, evs).toTwilio && a.Mark? ==> MarkStamp(a.name).Some?
    decreases |evs|
  {
    if evs != [] {
      var first := Step(s, evs[0]);
      StepMarks(s, evs[0]);
      RunMarksParse(first.next, evs[1..]);
    }
  }

  /** So `MarkStamps` of a stream has one entry per mark frame written. */
  lemma MarkStampsCountMarks(s: Session, evs: seq<Event>)
    ensures |MarkStamps(Run(s, evs).toTwilio)| == MarkCount(Run(s, evs).toTwilio)
  {
    RunMarksParse(s, evs);
    StampPerMark(Run(s, evs).toTwilio);
  }

  /** Spaced stamps span at least `MarkGapMs + 1` per gap. */
  lemma {:induction false} SpacedSpan(ts: seq<int>, after: int)
    requires Spaced(ts, after) && |ts| > 0
    ensures ts[|ts| - 1] - ts[0] >= (|ts| - 1) * (MarkGapMs + 1)
    decreases |ts|
  {
    if |ts| > 1 {
      SpacedSpan(ts[1..], ts[0]);
    }
  }

  /** A stream whose translation-leg messages all arrive within `[lo, hi]`
      writes at most one mark per started `MarkGapMs + 1` ms: with n marks,
      `(n - 1) * 1001 <= hi - lo`. */
  lemma MarkCountBound(s: Session, evs: seq<Event>, lo: int, hi: int)
    requires forall k :: 0 <= k < |evs| && evs[k].OpenAiMessage? ==> lo <= evs[k].now <= hi
    ensures var n := MarkCount(Run(s, evs).toTwilio);
            n > 0 ==> (n - 1) * (MarkGapMs + 1) <= hi - lo
  {
    MarkStampsCountMarks(s, evs);
    var ts := MarkStamps(Run(s, evs).toTwilio);
    MarksSpaced(s, evs);
    MarkStampsWithin(s, evs);
    if |ts| > 0 {
      SpacedSpan(ts, s.mark);
      assert ts[0] in ts && ts[|ts| - 1] in ts;
    }
  }

  // ---------------------------------------------------------------------
  // Barge-in.

  predicate IsAudioDelta(e: Event) {
    e.OpenAiMessage? && e.reply.Json? && e.reply.value.kind == AudioDeltaType
  }

  /** Audio deltas write nothing to the translation leg, no `clear` to the
      telephony leg, and leave the turn state alone. */
  lemma {:induction false} DeltasKeepTurn(s: Session, evs: seq<Event>)
    requires forall k :: 0 <= k < |evs| ==> IsAudioDelta(evs[k])
    ensures var o := Run(s, evs);
            && o.toOpenAi == []
            && (forall k :: 0 <= k < |o.toTwilio| ==> !o.toTwilio[k].Clear?)
            && o.next == s.(mark := o.next.mark)
    decreases |evs|
  {
    if evs != [] {
      DeltasKeepTurn(Step(s, evs[0]).next, evs[1..]);
    }
  }

  function SpeechEvent(kind: string, now: int): (e: Event) {
    OpenAiMessage(Json(OpenAiMsg(kind, None)), now)
  }

  /** Caller stops, translated audio streams, caller starts again: exactly one
      `response.create`, then exactly one `response.cancel` and one `clear`
      (the last telephony frame), and the turn ends idle. */
  lemma BargeInScenario(s: Session, deltas: seq<Event>, stoppedAt: int, startedAt: int)
    requires Truthy(s.sid) && s.twilio == Open && s.openAi == Open && !s.prog
    requires forall k :: 0 <= k < |deltas| ==> IsAudioDelta(deltas[k])
    ensures var o := Run(s, [SpeechEvent(SpeechStoppedType, stoppedAt)] + deltas + [SpeechEvent(SpeechStartedType, startedAt)]);
            && o.toOpenAi == [ResponseCreate, ResponseCancel]
            && |o.toTwilio| > 0 && o.toTwilio[|o.toTwilio| - 1] == Clear(s.sid)
            && (forall k :: 0 <= k < |o.toTwilio| - 1 ==> !o.toTwilio[k].Clear?)
            && !o.next.prog
  {
    var stopped := [SpeechEvent(SpeechStoppedType, stoppedAt)];
    var started := [SpeechEvent(SpeechStartedType, startedAt)];
    Traces.RunAppend(Step, s, stopped + deltas, started);
    Traces.RunAppend(Step, s, stopped, deltas);
    var o1 := Run(s, stopped);
    Traces.RunSingle(Step, s, stopped[0]);
    assert o1.toOpenAi == [ResponseCreate] && o1.toTwilio == [] && o1.next == s.(prog := true);
    DeltasKeepTurn(o1.next, deltas);
    var o2 := Run(o1.next, deltas);
    var o3 := Run(o2.next, started);
    Traces.RunSingle(Step, o2.next, started[0]);
    assert o3.toOpenAi == [ResponseCancel] && o3.toTwilio == [Clear(s.sid)];
  }

  // ---------------------------------------------------------------------
  // Audio to the caller.

  /** A telephony frame with the given `event`. */
  predicate IsFrame(e: Event, event: string) {
    e.TwilioMessage? && e.frame.Json? && e.frame.value.event == event
  }

  /** A `response.audio.delta` with a payload. */
  predicate IsPlayedDelta(e: Event) {
    e.OpenAiMessage? && e.reply.Json? && e.reply.value.kind == AudioDeltaType && Truthy(e.reply.value.delta)
  }

  /** The payloads of a stream's audio deltas, in arrival order. */
  function Deltas(evs: seq<Event>): (payloads: seq<string>)
    ensures |payloads| <= |evs|
    decreases |evs|
  {
    if evs == [] then []
    else (if IsPlayedDelta(evs[0]) then [evs[0].reply.value.delta.value] else []) + Deltas(evs[1..])
  }

  /** Once the stream id is known, and while no `start`, `stop` or telephony
      close intervenes, the caller hears every delta exactly once, in the
      order the backend sent them; marks and `clear` frames fall in between
      but carry no audio. */
  lemma {:induction false} DeltasPlayInOrder(s: Session, evs: seq<Event>)
    requires Truthy(s.sid) && s.twilio == Open
    requires forall k :: 0 <= k < |evs| ==>
        !evs[k].TwilioClose? && !IsFrame(evs[k], StartEvent) && !IsFrame(evs[k], StopEvent)
    ensures MediaPayloads(Run(s, evs).toTwilio) == Deltas(evs)
    decreases |evs|
  {
    if evs == [] {
      assert MediaPayloads([]) == [];
    } else {
      var first := Step(s, evs[0]);
      var rest := Run(first.next, evs[1..]);
      assert first.next.sid == s.sid && first.next.twilio == Open;
      DeltasPlayInOrder(first.next, evs[1..]);
      MediaPayloadsAppend(first.toTwilio, rest.toTwilio);
      if IsPlayedDelta(evs[0]) {
        var p := evs[0].reply.value.delta.value;
        var media := Media(s.sid, p);
        assert first.toTwilio == [media] || first.toTwilio == [media, Mark(s.sid, MarkName(evs[0].now))];
        assert MediaPayloads([media]) == [p] + MediaPayloads([]);
        assert MediaPayloads([media, Mark(s.sid, MarkName(evs[0].now))]) == [p] + MediaPayloads([Mark(s.sid, MarkName(evs[0].now))]);
      } else {
        assert first.toTwilio == [] || first.toTwilio == [Clear(s.sid)];
        assert MediaPayloads([Clear(s.sid)]) == [] + MediaPayloads([]);
      }
    }
  }

  // ---------------------------------------------------------------------
  // Robustness and teardown.

  /** A frame that does not parse or parses to `null`, or a translation-leg
      error. */
  predicate Ignorable(e: Event) {
    || (e.TwilioMessage? && !e.frame.Json?)
    || (e.OpenAiMessage? && !e.reply.Json?)
    || e.OpenAiError?
  }

  /** Inserting an unparsable or `null` frame (or an error event) anywhere in a stream
      changes nothing: the session goes on and handles every later frame
      exactly as it would have. */
  lemma IgnorableIsInvisible(s: Session, before: seq<Event>, e: Event, after: seq<Event>)
    requires Ignorable(e)
    ensures Run(s, before + [e] + after) == Run(s, before + after)
  {
    Traces.RunAppend(Step, s, before, [e] + after);
    Traces.RunAppend(Step, s, before, after);
    assert before + [e] + after == before + ([e] + after);
    var mid := Run(s, before).next;
    assert ([e] + after)[1..] == after;
    assert Run(mid, [e] + after) == Run(mid, after);
  }

  /** `stop` followed by the telephony socket's close event, with both legs
      open: the telephony socket is closed by the relay, and the translation
      socket is closed when the telephony close arrives. */
  lemma StopTearsDownBoth(s: Session, stop: TwilioMsg)
    requires s.twilio == Open && s.openAi == Open && stop.event == StopEvent
    ensures var o := Run(s, [TwilioMessage(Json(stop)), TwilioClose]);
            && o.toTwilio == [CloseTwilio] && o.toOpenAi == [CloseOpenAi]
            && o.next.twilio == Closed && o.next.openAi == Closing
  {
    var o1 := Step(s, TwilioMessage(Json(stop)));
    assert o1.next.openAi == Open;
    var o2 := Step(o1.next, TwilioClose);
    assert [TwilioMessage(Json(stop)), TwilioClose][1..] == [TwilioClose];
    assert Run(o1.next, [TwilioClose]) == Traces.Emitted(o2.next, o2.toTwilio + [], o2.toOpenAi + []);
  }

  // ---------------------------------------------------------------------
  // A `null` frame, as written.

  /** A stream as the code is written: it ends at the first `null` frame,
      which takes the process down; up to then it is `Run`. */
  function RunAsWritten(s: Session, evs: seq<Event>): (r: Outcome)
    ensures r.Crashed? <==> exists k :: 0 <= k < |evs| && NullFrame(evs[k])
    ensures r.Continued? ==> r.out == Run(s, evs)
    decreases |evs|
  {
    if evs == [] then Continued(Traces.Emitted(s, [], []))
    else
      match StepAsWritten(s, evs[0])
      case Crashed => Crashed
      case Continued(first) =>
        var tail := RunAsWritten(first.next, evs[1..]);
        assert forall k :: 1 <= k < |evs| ==> evs[k] == evs[1..][k - 1];
        match tail
        case Crashed => Crashed
        case Continued(rest) =>
          Continued(Traces.Emitted(rest.next, first.toTwilio + rest.toTwilio, first.toOpenAi + rest.toOpenAi))
  }

  /** One `null` frame anywhere in a stream ends the session as written,
      whatever follows; the corrected relay drops it and handles the rest of
      the stream as if it had never arrived. */
  lemma NullFrameEndsSession(s: Session, before: seq<Event>, e: Event, after: seq<Event>)
    requires NullFrame(e)
    ensures RunAsWritten(s, before + [e] + after).Crashed?
    ensures Run(s, before + [e] + after) == Run(s, before + after)
  {
    var evs := before + [e] + after;
    assert evs[|before|] == e;
    IgnorableIsInvisible(s, before, e, after);
  }
}

=== FILE: relay_traces.dfy ===
/** Properties of whole event streams of the server.js relay, proved by
    induction over the stream. */
module RelayTraces {
  import opened Legs
  import opened CallRegistry
  import opened Relay
  import Traces

  // ---------------------------------------------------------------------
  // Inbound audio and the configuration.

  /** Although server.js has no `ready` flag, every `append` of a stream
      still follows a `session.update`, unless the translation socket was
      already OPEN when the stream began: the socket becomes OPEN only as its
      open handler runs, and that handler sends the configuration. */
  lemma {:induction false} AppendsFollowConfig(w: World, evs: seq<Event>)
    ensures AppendsAfterConfig(Run(w, evs).toOpenAi, LegOpen(w.session))
    decreases |evs|
  {
    if evs != [] {
      var first := Step(w, evs[0]);
      var rest := Run(first.next, evs[1..]);
      AppendsFollowConfig(first.next, evs[1..]);
      assert AppendsAfterConfig(first.toOpenAi, LegOpen(w.session));
      AppendsAfterConfigConcat(first.toOpenAi, rest.toOpenAi, LegOpen(w.session), LegOpen(first.next.session));
    }
  }

  lemma NoAppendBeforeConfig(reg: Registry, evs: seq<Event>)
    ensures var out := Run(Connect(reg), evs).toOpenAi;
            forall i :: 0 <= i < |out| && out[i].Append? ==>
              exists j :: 0 <= j < i && out[j].SessionUpdate?
  {
    AppendsFollowConfig(Connect(reg), evs);
  }

  // ---------------------------------------------------------------------
  // The registry over a stream.

  predicate IsStop(e: Event) {
    e.TwilioMessage? && e.frame.Json? && e.frame.value.event == StopEvent
  }

  /** Without call setups, a stream only removes registry entries: every
      entry left is one that was there, with the same pair. */
  lemma {:induction false} RegistryOnlyShrinks(w: World, evs: seq<Event>)
    requires forall k :: 0 <= k < |evs| ==> !evs[k].CallSetup?
    ensures var r := Run(w, evs).next.registry;
            forall c :: c in r ==> c in w.registry && r[c] == w.registry[c]
    decreases |evs|
  {
    if evs != [] {
      RegistryOnlyShrinks(Step(w, evs[0]).next, evs[1..]);
    }
  }

  /** Only `stop` deletes: a stream with neither call setups nor `stop`
      frames (the telephony socket may close, the translation leg may fail)
      leaves the registry exactly as it was. */
  lemma {:induction false} RegistryKeptWithoutStop(w: World, evs: seq<Event>)
    requires forall k :: 0 <= k < |evs| ==> !evs[k].CallSetup? && !IsStop(evs[k])
    ensures Run(w, evs).next.registry == w.registry
    decreases |evs|
  {
    if evs != [] {
      RegistryKeptWithoutStop(Step(w, evs[0]).next, evs[1..]);
    }
  }

  function StartFrame(callSid: JsKey, streamSid: Option<string>): (e: Event) {
    TwilioMessage(Json(TwilioMsg(StartEvent, Some(StartBody(streamSid, callSid)), None, None)))
  }

  /** Call setup followed by the stream start of the same call: the
      translation leg is configured with the pair from the setup query, and
      the entry is still in the registry afterwards (reading does not
      consume it). */
  lemma SetupThenStart(reg: Registry, sourceQuery: Option<string>, targetQuery: Option<string>,
                       callSid: JsKey, streamSid: Option<string>)
    ensures var w := Run(Connect(reg), [CallSetup(sourceQuery, targetQuery, callSid), StartFrame(callSid, streamSid)]).next;
            && w.session.openAi == Some(Backend(Connecting, SetupPair(sourceQuery, targetQuery)))
            && callSid in w.registry && w.registry[callSid] == SetupPair(sourceQuery, targetQuery)
            && w.session.streamSid == streamSid
  {
    var setup := CallSetup(sourceQuery, targetQuery, callSid);
    var start := StartFrame(callSid, streamSid);
    Traces.RunAppend(Step, Connect(reg), [setup], [start]);
    assert [setup] + [start] == [setup, start];
    Traces.RunSingle(Step, Connect(reg), setup);
    Traces.RunSingle(Step, Step(Connect(reg), setup).next, start);
  }

  /** A stream that starts and then stops, with the translation socket open
      at the stop: its call's entry is gone and the socket is closing. */
  lemma StartThenStopForgets(w: World, callSid: JsKey, streamSid: Option<string>, stop: TwilioMsg)
    requires KeyTruthy(callSid) && stop.event == StopEvent
    ensures var o := Run(w, [StartFrame(callSid, streamSid), OpenAiOpen, TwilioMessage(Json(stop))]);
            && callSid !in o.next.registry
            && o.toOpenAi == [SessionUpdate(Languages(w.registry, callSid).source, Languages(w.registry, callSid).target), CloseOpenAi]
            && o.next.session.openAi == Some(Backend(Closing, Languages(w.registry, callSid)))
  {
    var e1 := StartFrame(callSid, streamSid);
    var e3 := TwilioMessage(Json(stop));
    var w1 := Step(w, e1).next;
    var w2 := Step(w1, OpenAiOpen).next;
    assert [e1, OpenAiOpen, e3] == [e1] + ([OpenAiOpen] + [e3]);
    Traces.RunAppend(Step, w, [e1], [OpenAiOpen] + [e3]);
    Traces.RunAppend(Step, w1, [OpenAiOpen], [e3]);
    Traces.RunSingle(Step, w, e1);
    Traces.RunSingle(Step, w1, OpenAiOpen);
    Traces.RunSingle(Step, w2, e3);
  }

  // ---------------------------------------------------------------------
  // Audio to the caller.

  /** `payload` is the `delta` of a `response.output_audio.delta` event of
      the stream. */
  predicate DeltaIn(evs: seq<Event>, payload: string) {
    exists k :: 0 <= k < |evs| && evs[k].OpenAiMessage? && evs[k].reply.Json? &&
      evs[k].reply.value.kind == OutputAudioDeltaType && evs[k].reply.value.delta == Some(payload)
  }

  /** Everything a stream writes to the telephony leg is translated audio: a
      `media` frame whose payload is the delta of a translation-leg event of
      the same stream, and no more frames than events. */
  lemma {:induction false} TwilioGetsOnlyDeltas(w: World, evs: seq<Event>)
    ensures var out := Run(w, evs).toTwilio;
            && |out| <= |evs|
            && forall i :: 0 <= i < |out| ==> out[i].Media? && DeltaIn(evs, out[i].payload)
    decreases |evs|
  {
    if evs != [] {
      var first := Step(w, evs[0]);
      var rest := Run(first.next, evs[1..]);
      TwilioGetsOnlyDeltas(first.next, evs[1..]);
      var out := first.toTwilio + rest.toTwilio;
      assert |first.toTwilio| <= 1;
      forall i | 0 <= i < |out|
        ensures out[i].Media? && DeltaIn(evs, out[i].payload)
      {
        if i < |first.toTwilio| {
          assert evs[0].OpenAiMessage? && evs[0].reply.Json?;
          assert out[i] == Media(w.session.streamSid, evs[0].reply.value.delta.value);
        } else {
          var j := i - |first.toTwilio|;
          assert out[i] == rest.toTwilio[j];
          var k :| 0 <= k < |evs[1..]| && evs[1..][k].OpenAiMessage? && evs[1..][k].reply.Json? &&
            evs[1..][k].reply.value.kind == OutputAudioDeltaType && evs[1..][k].reply.value.delta == Some(out[i].payload);
          assert evs[k + 1] == evs[1..][k];
        }
      }
    }
  }

  /** A non-empty `response.output_audio.delta`. */
  predicate IsDelta(e: Event) {
    e.OpenAiMessage? && e.reply.Json? && e.reply.value.kind == OutputAudioDeltaType && Truthy(e.reply.value.delta)
  }

  /** The payloads of a stream's non-empty audio deltas, in arrival order. */
  function Deltas(evs: seq<Event>): (payloads: seq<string>)
    ensures |payloads| <= |evs|
    decreases |evs|
  {
    if evs == [] then []
    else (if IsDelta(evs[0]) then [evs[0].reply.value.delta.value] else []) + Deltas(evs[1..])
  }

  /** While the telephony socket stays open and a translation socket exists,
      the caller hears every delta exactly once, in the order the backend
      sent them. */
  lemma {:induction false} DeltasPlayInOrder(w: World, evs: seq<Event>)
    requires w.session.twilio == Open && w.session.openAi.Some?
    requires forall k :: 0 <= k < |evs| ==> !evs[k].TwilioClose?
    ensures MediaPayloads(Run(w, evs).toTwilio) == Deltas(evs)
    decreases |evs|
  {
    if evs == [] {
      assert MediaPayloads([]) == [];
    } else {
      var first := Step(w, evs[0]);
      var rest := Run(first.next, evs[1..]);
      assert first.next.session.twilio == Open && first.next.session.openAi.Some?;
      DeltasPlayInOrder(first.next, evs[1..]);
      MediaPayloadsAppend(first.toTwilio, rest.toTwilio);
      if IsDelta(evs[0]) {
        var p := evs[0].reply.value.delta.value;
        assert first.toTwilio == [Media(w.session.streamSid, p)];
        assert MediaPayloads(first.toTwilio) == [p] + MediaPayloads([]);
      } else {
        assert first.toTwilio == [];
      }
    }
  }

  // ---------------------------------------------------------------------
  // Robustness.

  /** A frame that does not parse, parses to `null`, or whose handling
      throws, or an error event of the translation leg. */
  predicate Ignorable(e: Event) {
    || (e.TwilioMessage? && !e.frame.Json?)
    || (e.TwilioMessage? && e.frame.Json? && e.frame.value.event == StartEvent && e.frame.value.start.None?)
    || (e.TwilioMessage? && e.frame.Json? && e.frame.value.event == MediaEvent && e.frame.value.media.None?)
    || (e.OpenAiMessage? && !e.reply.Json?)
    || e.OpenAiError?
  }

  /** Such an event is a no-op step. */
  lemma IgnorableStep(w: World, e: Event)
    requires Ignorable(e)
    ensures Step(w, e) == Traces.Emitted(w, [], [])
  {
  }

  /** Such an event anywhere in a stream changes nothing: the session carries
      on and handles every later frame exactly as it would have. */
  lemma IgnorableIsInvisible(w: World, before: seq<Event>, e: Event, after: seq<Event>)
    requires Ignorable(e)
    ensures Run(w, before + [e] + after) == Run(w, before + after)
  {
    assert before + [e] + after == before + ([e] + after);
    Traces.RunAppend(Step, w, before, [e] + after);
    Traces.RunAppend(Step, w, before, after);
    var mid := Run(w, before).next;
    IgnorableStep(mid, e);
    assert ([e] + after)[0] == e && ([e] + after)[1..] == after;
    assert Run(mid, [e] + after) == Run(mid, after);
  }
}

=== FILE: traces.dfy ===
/** Event streams of a relay session: running a step function over a
    sequence of events, collecting what each step writes to the telephony
    leg and to the translation leg. */
module Traces {

  /** The state after a step (or a stream of steps) and the frames written to
      each leg, in order. */
  datatype Emitted<S, T, U> = Emitted(next: S, toTwilio: seq<T>, toOpenAi: seq<U>)

  /** Runs `step` over `evs` from `s`. */
  function Run<S, E, T, U>(step: (S, E) -> Emitted<S, T, U>, s: S, evs: seq<E>): (o: Emitted<S, T, U>)
    decreases |evs|
  {
    if evs == [] then Emitted(s, [], [])
    else
      var first := step(s, evs[0]);
      var rest := Run(step, first.next, evs[1..]);
      Emitted(rest.next, first.toTwilio + rest.toTwilio, first.toOpenAi + rest.toOpenAi)
  }

  /** The states a stream passes through: element `k` is the state just
      before `evs[k]`, the last one the state after the stream. */
  function States<S, E, T, U>(step: (S, E) -> Emitted<S, T, U>, s: S, evs: seq<E>): (ss: seq<S>)
    ensures |ss| == |evs| + 1 && ss[0] == s
    decreases |evs|
  {
    if evs == [] then [s] else [s] + States(step, step(s, evs[0]).next, evs[1..])
  }

  /** A one-event stream is one step. */
  lemma RunSingle<S, E, T, U>(step: (S, E) -> Emitted<S, T, U>, s: S, e: E)
    ensures Run(step, s, [e]) == step(s, e)
  {
    var first := step(s, e);
    assert [e][1..] == [];
    assert first.toTwilio + [] == first.toTwilio && first.toOpenAi + [] == first.toOpenAi;
  }

  /** Running two streams one after the other is running their concatenation. */
  lemma {:induction false} RunAppend<S, E, T, U>(step: (S, E) -> Emitted<S, T, U>, s: S, a: seq<E>, b: seq<E>)
    ensures var first := Run(step, s, a);
            var second := Run(step, first.next, b);
            Run(step, s, a + b) == Emitted(second.next, first.toTwilio + second.toTwilio, first.toOpenAi + second.toOpenAi)
    decreases |a|
  {
    if a == [] {
      assert a + b == b;
    } else {
      assert (a + b)[0] == a[0];
      assert (a + b)[1..] == a[1..] + b;
      RunAppend(step, step(s, a[0]).next, a[1..], b);
    }
  }

  /** `States` follows the step function. */
  lemma {:induction false} StatesStep<S, E, T, U>(step: (S, E) -> Emitted<S, T, U>, s: S, evs: seq<E>, k: nat)
    requires k < |evs|
    ensures States(step, s, evs)[k + 1] == step(States(step, s, evs)[k], evs[k]).next
    decreases k
  {
    if k > 0 {
      StatesStep(step, step(s, evs[0]).next, evs[1..], k - 1);
    }
  }
}

=== FILE: variants.dfy ===
/** Where the two relay variants part ways on the same input. */
module Variants {
  import opened Legs
  import RelayDebug
  import Relay
  import Traces

  /** Each variant plays translated audio only from its own event type: the
      debug relay listens for `response.audio.delta`, server.js for
      `response.output_audio.delta`, and each ignores the other's. */
  lemma DeltaNamesDiffer(ds: RelayDebug.Session, w: Relay.World, delta: Option<string>, now: int)
    ensures RelayDebug.Step(ds, RelayDebug.OpenAiMessage(Json(OpenAiMsg(Relay.OutputAudioDeltaType, delta)), now))
              == Traces.Emitted(ds, [], [])
    ensures Relay.Step(w, Relay.OpenAiMessage(Json(OpenAiMsg(RelayDebug.AudioDeltaType, delta))))
              == Traces.Emitted(w, [], [])
  {
  }

  /** Inbound audio on an OPEN translation socket: server.js forwards it
      whatever the payload, the debug relay only when the payload is a
      non-empty string and `ready` is set. */
  lemma MediaGateDiffers(ds: RelayDebug.Session, w: Relay.World, msg: TwilioMsg)
    requires msg.event == MediaEvent && msg.media.Some? && !Truthy(msg.media.value.payload)
    requires Relay.LegOpen(w.session)
    ensures RelayDebug.Step(ds, RelayDebug.TwilioMessage(Json(msg))).toOpenAi == []
    ensures Relay.Step(w, Relay.TwilioMessage(Json(msg))).toOpenAi == [Append(msg.media.value.payload)]
  {
  }
}
